=== FILE: README.md ===
# Task API and Kanban board rules, modelled in Dafny

This project models the two pieces of logic in the project-management
example: the in-memory task API of `backend/server.js`, and the status rules
and input guards of the Kanban board in `frontend/app.js`.

**Backend.** The server keeps a task array and a `nextId` counter. The
process starts with one example task (id 1) and `nextId = 2`. Each HTTP
request is one atomic step. The step takes the store, the method, the
pathname and the parsed body. It returns the new store, a status code and a
reply (`Server.Handle`). The routes are:

- `OPTIONS` on any path answers 204 with no body.
- `GET /api/tasks` lists the tasks.
- `POST /api/tasks` validates the body, gives the task the next id,
  coerces `completed` to a boolean, and appends the task.
- Everything else answers 404 "Not Found".

The body is abstract. It is either a parse error or a JSON value (`Json.Value`).

**Frontend.** The rules buried in the DOM code are pure functions over a
`Board.Task`:
- the successor map `todo → in-progress → done`;
- the split of tasks into the three status columns;
- the rule that every task outside the done column gets a move button;
- the trimming guards of `addProject` and `addTask`.

JavaScript's `trim` and the rendering of an id in a URL are modelled in
`Text`. These use the white-space set of sections 12.2 and 12.3 of ECMA-262.

The backend serves only `/api/tasks`. It answers a created task with 200
and never answers 405. The board, however, sends its create and move
requests to `/api/projects…`. `Integration` proves that the server answers
each of these requests with 404 and does not change its state.

Modules: `Optional` (optional values), `Json` (parsed JSON values and
truthiness), `Server` (backend/server.js), `Text` (trim and decimal
rendering), `Board` (frontend/app.js), `Integration` (board calls against
the server).

## Model

| member | source | states |
|---|---|---|
| `Json.Get` | backend/server.js:54-61 | Reading `title` or `completed` from a parsed value yields the object's own field when the value is an object that has it, and `undefined` otherwise, for a number, string, boolean or array too. |
| `Server.ToJson` | backend/server.js:64 | A stored task is written as an object with `id`, `title` and `completed` from the task. Every other field the client sent is written unchanged. No other key appears. |
| `Server.TasksJson` | backend/server.js:40 | The listing has one object per stored task, in store order. |
| `Server.Seed` | backend/server.js:17-20 | The initial store holds exactly one task, "Example Task", not completed, with id 1, and `nextId` is 2. It satisfies the invariant, and `nextId` is one more than the task count. |
| `Server.Validate` | backend/server.js:51-59 | Three cases. A body that does not parse, or parses to `null`, is refused as invalid JSON. A body is accepted exactly when it is an object whose `title` is a non-empty string. Everything else, including numbers, strings and arrays, is refused for a missing title. |
| `Server.Post` | backend/server.js:51-69 | A refused body leaves the store unchanged and answers 400 with the reason. An accepted body appends exactly one task and keeps the earlier tasks. It gives the new task the old `nextId` as its id, increments the counter by one, and answers 200 with the stored task. |
| `Server.Handle` | backend/server.js:31-77 | `OPTIONS` on any path: 204, no body, store unchanged. `GET /api/tasks`: 200 with the tasks in store order, store unchanged. Any other method or path, including PUT and DELETE: 404 "Not Found", store unchanged. The status is always 200, 204, 400 or 404, never 405. Only a POST to `/api/tasks` that answers 200 changes the store. |
| `Server.RejectedPostChangesNothing` | backend/server.js:51-69 | A refused POST leaves tasks and counter unchanged and answers 400. The body says "Invalid JSON payload." when the body did not parse or was `null`. Otherwise it says "Task must have a string title.". |
| `Server.CreatedTaskIsMutatedPayload` | backend/server.js:60-64 | The stored task is the client's object changed in place. `id` is overwritten with the old counter, `completed` is replaced by its truthiness, and every other field is kept. |
| `Server.TitleStoredUntrimmed` | backend/server.js:54-62 | The title is not trimmed. Any non-empty string title, including one made only of blanks, is accepted with 200 and appended as one task whose title is exactly the string sent. |
| `Server.BlankTitleAccepted` | backend/server.js:54-62 | As an instance, a title of three blanks is accepted and stored as three blanks. |
| `Server.StepPreservesValid` | backend/server.js:60-62 | Every request keeps the invariant. Titles stay non-empty and no task has a stray reserved key. Ids stay at least 1 and below `nextId`, and increase strictly along the array. |
| `Server.StepPreservesDense` | backend/server.js:60-62 | Every request keeps the ids equal to 1..n in order, with `nextId` equal to n + 1. |
| `Server.RunPreserves` | backend/server.js:22-78 | Over any sequence of requests the invariants hold. No stored task is changed or lost. The counter grows by exactly the number of tasks added. |
| `Server.ReachableStoresAreValid` | backend/server.js:17-62 | In every state reachable from the seed, all ids are distinct, are 1..n in order, and are below `nextId`. |
| `Server.PostThenGet` | backend/server.js:38-64 | After a successful POST, a GET lists the earlier tasks unchanged and then, last, the exact object the POST returned. |
| `Server.NewIdIsFresh` | backend/server.js:60 | A newly assigned id differs from every id already stored. |
| `Json.Truthy` | backend/server.js:61 | Only a present, non-`null` value can be truthy. Every array and object is truthy. |
| `Json.FalsyValues` | backend/server.js:61 | `Boolean()` is false exactly for `undefined`, `null`, `false`, `0` and the empty string. |
| `Text.Trim` | frontend/app.js:104 | `trim` returns a slice of its input. Only white space lies before and after the slice, and the slice neither starts nor ends with white space. |
| `Text.TrimIsTheTrimmedSlice` | frontend/app.js:104 | A string has exactly one such slice, and `trim` returns it. |
| `Text.TrimmedSliceUnique` | frontend/app.js:104 | Two slices that are both trimmed slices of the same string are equal. |
| `Text.TrimEmpty` | frontend/app.js:104-105 | The trimmed string is empty exactly when the input is all white space. |
| `Text.TrimHasNoPadding` | frontend/app.js:123-124 | A non-empty trimmed string starts and ends with a character that is not white space. |
| `Text.TrimIgnoresPadding` | frontend/app.js:123-125 | Adding white space around a string does not change its trimmed form. |
| `Text.TrimKeepsUnpadded` | frontend/app.js:104 | A string that neither starts nor ends with white space is left unchanged by `trim`. |
| `Text.TrimIdempotent` | frontend/app.js:104 | Trimming twice gives the same result as trimming once. |
| `Text.Digits` | frontend/app.js:127 | An id renders as a non-empty string of decimal digits with no leading zero. |
| `Text.DigitsRoundTrip` | frontend/app.js:127 | Reading the digits back gives the number. |
| `Text.Decimal` | frontend/app.js:127 | An integer renders as a non-empty string: a leading minus sign exactly when it is negative, and only decimal digits after the first character. |
| `Text.DecimalRoundTrip` | frontend/app.js:148 | Reading back a signed decimal rendering gives the integer. |
| `Text.DecimalInjective` | frontend/app.js:127-148 | Two integers with the same rendering are equal. |
| `Board.NextStatus` | frontend/app.js:144-146 | `todo` moves to `in-progress` and `in-progress` moves to `done`. `done` and every unknown status have no successor, so no request is sent. |
| `Board.NextStatusProgresses` | frontend/app.js:144 | Each move brings a task one step closer to done. |
| `Board.Progression` | frontend/app.js:143-146 | Repeated moves follow the successor map, one step at a time, until a status with no successor is reached. |
| `Board.ProgressionReachesDone` | frontend/app.js:144-146 | From any known status, repeated moves end at `done` within two steps, and then stop. |
| `Board.Column` | frontend/app.js:77 | A column holds only tasks with its status, and holds every input task with that status. |
| `Board.ColumnOfConcat` | frontend/app.js:77 | Filtering commutes with concatenation, so a column keeps the input order. |
| `Board.ColumnCounts` | frontend/app.js:77 | A column contains each task with its status as many times as the input does, and no other task. |
| `Board.TasksArePartitioned` | frontend/app.js:73-77 | A task with status `todo`, `in-progress` or `done` lands in exactly one column, the one for its status. A task with any other status lands in no column. |
| `Board.Cards` | frontend/app.js:78-97 | One item per task of the column, in column order. An item has a move button exactly when its task is not `done`. |
| `Board.Render` | frontend/app.js:72-99 | The todo, in-progress and done lists are the three status columns, in order. Every todo and in-progress item has a move button, and no done item has one. |
| `Board.MoveButtonRule` | frontend/app.js:85-90 | Cards in the todo and in-progress columns have a move button, and a click on it always sends the next status. Cards in the done column have no move button. |
| `Board.Verb` | frontend/app.js:107-151 | Creating a project or a task uses POST, and moving a task uses PUT. No call uses OPTIONS. |
| `Board.Path` | frontend/app.js:107-148 | Every call goes under `/api/projects`. Only creating a project uses `/api/projects` itself. A task call carries `/<project id>/tasks`, and a move ends with `/tasks/<task id>`. |
| `Board.CreateTaskPathDeterminesIds` | frontend/app.js:127 | Two task creations sent to the same path are for the same project, so distinct project ids give distinct URLs. |
| `Board.MovePathDeterminesIds` | frontend/app.js:148 | Two moves sent to the same path are for the same project and the same task, so distinct ids give distinct URLs. |
| `Board.Payload` | frontend/app.js:110-151 | The body holds exactly the fields the call sends: `name`; or `title`, `description` and status `todo`; or `status`. |
| `Board.AddProject` | frontend/app.js:103-111 | Nothing is sent when the name is all white space. Otherwise a project is created with the trimmed, non-empty name. |
| `Board.AddTask` | frontend/app.js:121-131 | Nothing is sent when no project is selected or the title is all white space. Otherwise the trimmed title and trimmed description are sent with status `todo`. |
| `Board.MoveForward` | frontend/app.js:143-152 | An update is sent exactly when a project is selected and the status is `todo` or `in-progress`. It goes to the selected project and the task's id. It carries the successor status from the map, one step closer to done. |
| `Board.GuardsIgnorePadding` | frontend/app.js:104-125 | White space typed around a project name or a task title does not change what is sent. |
| `Integration.BoardCallsAreNotFound` | backend/server.js:74-77 | Every create or move call the board makes goes to `/api/projects…`. The server answers each with 404 "Not Found" and leaves its state unchanged. |
| `Integration.BoardSessionChangesNothing` | backend/server.js:74-77 | Any sequence of the board's create and move calls leaves the server's store exactly as it was. |

## Left out

- HTTP plumbing is left out: server setup, the chunked reading of the body, the CORS header values, the port and environment configuration, and logging (backend/server.js:1-2, 22-28, 46-50, 80-83).
- URL parsing is left out. The pathname is given directly, so the query-string stripping done by `url.parse` is not modelled.
- JSON text is not modelled. A body is either a parse failure or an abstract `Json.Value`. A response carries the value that `JSON.stringify` would write for finite numbers. Object key order is lost, because objects are maps.
- Infinite numbers are not modelled. A number literal too large for a double, such as `1e400`, parses to ±Infinity. A stored task keeps that field, and both the listing and the POST answer would write it as `null` (backend/server.js:40, 64). `Json.Value` has only finite numbers, so such a field is not represented.
- Numbers are reals and `nextId` is an unbounded integer. JavaScript loses integer precision above 2^53, which is far beyond any reachable count.
- Browser preflight is not modelled. A browser sends a cross-origin JSON POST or PUT only after an `OPTIONS` preflight. The model sends only the real request. `Server.Handle` answers the preflight itself with 204.
- Board.NextStatus: `nextStatusMap[status]` in JavaScript also finds inherited names such as `toString` or `constructor`, which would send an update whose `status` is not one of the three statuses (`{}`, or `{"status":{}}` for `__proto__`). This is not modelled. The function is only reached through the move button, and `Board.MoveButtonRule` shows that this button exists only for `todo` and `in-progress` tasks.
- Board.Path: ids are rendered as integers and assumed to be safe integers (magnitude at most 2^53 - 1). JavaScript writes larger doubles with rounded digits or in exponent form, such as `1e+21`, which `Text.Decimal` does not model. A fractional or non-numeric id from the server is not modelled.
- DOM work and other I/O in frontend/app.js are left out: `fetch`, `async`/`await`, error logging, `loadProjects`, `renderProjectList`, `selectProject`, `highlightSelectedProject` and the HTML of a card. `deleteTask` sends a DELETE under `/api/projects`, which would get the same 404 as the modelled calls.
- Json.Get: models a property read only for keys that are neither built-in properties of strings and arrays (`length`, indices) nor inherited from `Object.prototype` (`constructor`). The server reads only `title` and `completed`, for which the read is exact.
- Serialisation failures from engine stack limits are not modelled. `JSON.parse` can accept nesting deeper than `JSON.stringify` can write. The task is stored and `nextId` incremented before `JSON.stringify(task)` runs (backend/server.js:60-64), so such a body would get 400 "Invalid JSON payload." with the store already changed, and every later listing would throw (backend/server.js:40).
- Strings are sequences of Unicode scalar values. A lone UTF-16 surrogate, such as the one in the JSON string `"\ud800"`, cannot be represented. No modelled behaviour depends on one.
- Concurrency is left out. The server runs on one event loop, so each request is one atomic step.

=== FILE: board.dfy ===
/** The status rules and input guards of the Kanban board in
    frontend/app.js, lifted out of the DOM code as pure functions. */
module Board {
  import opened Optional
  import opened Json
  import Text

  const Todo := "todo"
  const InProgress := "in-progress"
  const Done := "done"

  /** The columns of the board, left to right. */
  const Statuses: seq<string> := [Todo, InProgress, Done]

  /** A task as the board reads it from the server. */
  datatype Task = Task(id: int, title: string, description: string, status: string)

  predicate IsKnownStatus(status: string)
  {
    status == Todo || status == InProgress || status == Done
  }

  /** `nextStatusMap[status]` in `moveTaskForward`: todo moves to
      in-progress, in-progress moves to done, and nothing else moves. */
  function NextStatus(status: string): (r: Option<string>)
    ensures status == Todo ==> r == Some(InProgress)
    ensures status == InProgress ==> r == Some(Done)
    ensures r.Some? ==> IsKnownStatus(r.value) && r.value != Todo && r.value != status
    ensures r.None? <==> status != Todo && status != InProgress
  {
    if status == Todo then Some(InProgress)
    else if status == InProgress then Some(Done)
    else None
  }

  /** How many forward moves a status is from done. */
  function DistanceToDone(status: string): nat
  {
    if status == Todo then 2 else if status == InProgress then 1 else 0
  }

  /** Every move brings a task one step closer to done. */
  lemma NextStatusProgresses(status: string)
    requires NextStatus(status).Some?
    ensures DistanceToDone(NextStatus(status).value) == DistanceToDone(status) - 1
  {
  }

  /** The statuses a task passes through when moved forward again and again,
      starting with its own, until no move is left. */
  function Progression(status: string): (r: seq<string>)
    ensures |r| >= 1 && r[0] == status
    ensures forall k :: 0 <= k < |r| - 1 ==> NextStatus(r[k]) == Some(r[k + 1])
    ensures NextStatus(r[|r| - 1]).None?
    decreases DistanceToDone(status)
  {
    match NextStatus(status)
    case None => [status]
    case Some(next) => [status] + Progression(next)
  }

  /** From a known status repeated moves end at done after at most two
      steps; done itself never moves. */
  lemma {:induction false} ProgressionReachesDone(status: string)
    requires IsKnownStatus(status)
    ensures Progression(status)[|Progression(status)| - 1] == Done
    ensures |Progression(status)| == DistanceToDone(status) + 1 <= 3
    decreases DistanceToDone(status)
  {
    if status != Done {
      ProgressionReachesDone(NextStatus(status).value);
    }
  }

  /** The tasks shown in the column for `status`, in their original order:
      `tasks.filter(task => task.status === status)`. */
  function Column(tasks: seq<Task>, status: string): (r: seq<Task>)
    ensures |r| <= |tasks|
    ensures forall k :: 0 <= k < |r| ==> r[k].status == status
    ensures forall t :: t in tasks && t.status == status ==> t in r
    ensures forall t :: t in r ==> t in tasks
    decreases |tasks|
  {
    if tasks == [] then []
    else if tasks[|tasks| - 1].status == status then Column(tasks[..|tasks| - 1], status) + [tasks[|tasks| - 1]]
    else Column(tasks[..|tasks| - 1], status)
  }

  /** Filtering commutes with concatenation, so two tasks that both land in
      a column keep their relative order. */
  lemma {:induction false} ColumnOfConcat(a: seq<Task>, b: seq<Task>, status: string)
    ensures Column(a + b, status) == Column(a, status) + Column(b, status)
    decreases |b|
  {
    if b != [] {
      var b' := b[..|b| - 1];
      assert (a + b)[..|a + b| - 1] == a + b';
      ColumnOfConcat(a, b', status);
    } else {
      assert a + b == a;
    }
  }

  /** A column holds each task with that status as many times as the input
      does, and no other task. */
  lemma {:induction false} ColumnCounts(tasks: seq<Task>, status: string, t: Task)
    ensures multiset(Column(tasks, status))[t] == if t.status == status then multiset(tasks)[t] else 0
    decreases |tasks|
  {
    if tasks != [] {
      var init := tasks[..|tasks| - 1];
      assert tasks == init + [tasks[|tasks| - 1]];
      ColumnCounts(init, status, t);
    }
  }

  /** Every task with a known status appears in exactly one column, the one
      named by its status; a task with any other status appears in none. */
  lemma TasksArePartitioned(tasks: seq<Task>, t: Task)
    ensures IsKnownStatus(t.status) ==>
      multiset(Column(tasks, Todo))[t] + multiset(Column(tasks, InProgress))[t]
        + multiset(Column(tasks, Done))[t] == multiset(tasks)[t]
    ensures forall s :: s in Statuses && s != t.status ==> t !in Column(tasks, s)
    ensures !IsKnownStatus(t.status) ==> forall s :: s in Statuses ==> t !in Column(tasks, s)
  {
    ColumnCounts(tasks, Todo, t);
    ColumnCounts(tasks, InProgress, t);
    ColumnCounts(tasks, Done, t);
  }

  /** A rendered task item: the task and whether it has a move button. */
  datatype Card = Card(task: Task, movable: bool)

  /** The three task lists of the board. */
  datatype View = View(todo: seq<Card>, inProgress: seq<Card>, done: seq<Card>)

  /** The items of one column; every item but a done one gets a move button. */
  function Cards(tasks: seq<Task>): (r: seq<Card>)
    ensures |r| == |tasks|
    ensures forall k :: 0 <= k < |r| ==> r[k].task == tasks[k]
    ensures forall k :: 0 <= k < |r| ==> (r[k].movable <==> tasks[k].status != Done)
  {
    seq(|tasks|, k requires 0 <= k < |tasks| => Card(tasks[k], tasks[k].status != Done))
  }

  /** `renderTasks`: one list per status, in board order. */
  function Render(tasks: seq<Task>): (v: View)
    ensures |v.todo| == |Column(tasks, Todo)| && |v.inProgress| == |Column(tasks, InProgress)|
            && |v.done| == |Column(tasks, Done)|
    ensures forall k :: 0 <= k < |v.todo| ==> v.todo[k].task == Column(tasks, Todo)[k] && v.todo[k].movable
    ensures forall k :: 0 <= k < |v.inProgress| ==>
      v.inProgress[k].task == Column(tasks, InProgress)[k] && v.inProgress[k].movable
    ensures forall k :: 0 <= k < |v.done| ==> v.done[k].task == Column(tasks, Done)[k] && !v.done[k].movable
  {
    View(Cards(Column(tasks, Todo)), Cards(Column(tasks, InProgress)), Cards(Column(tasks, Done)))
  }

  /** The move button is on exactly the cards outside the done column, and
      every card that has one has a status to move to, so a click on it
      always sends an update. */
  lemma MoveButtonRule(tasks: seq<Task>)
    ensures var v := Render(tasks);
      && (forall k :: 0 <= k < |v.todo| ==> v.todo[k].movable && NextStatus(v.todo[k].task.status) == Some(InProgress))
      && (forall k :: 0 <= k < |v.inProgress| ==> v.inProgress[k].movable && NextStatus(v.inProgress[k].task.status) == Some(Done))
      && (forall k :: 0 <= k < |v.done| ==> !v.done[k].movable && NextStatus(v.done[k].task.status).None?)
  {
  }

  /** A request the board sends to the server. */
  datatype Call =
    | CreateProject(name: string)
    | CreateTask(projectId: int, title: string, description: string)
    | UpdateStatus(projectId: int, taskId: int, status: string)

  /** The path of `${API_BASE}/projects`; the scheme and host of `API_BASE`
      are not modelled. */
  const ProjectsPath := "/api/projects"

  /** Creating uses POST and moving uses PUT; no call is an OPTIONS. */
  function Verb(c: Call): (r: string)
    ensures r == "POST" || r == "PUT"
    ensures r == "PUT" <==> c.UpdateStatus?
  {
    match c
    case CreateProject(_) => "POST"
    case CreateTask(_, _, _) => "POST"
    case UpdateStatus(_, _, _) => "PUT"
  }

  /** The path part of the URL the call is sent to. Every path lies under
      the projects collection; a task path carries the project id and, for
      a move, ends with the task id. */
  function Path(c: Call): (p: string)
    ensures ProjectsPath <= p
    ensures p == ProjectsPath <==> c.CreateProject?
    ensures !c.CreateProject? ==> ProjectsPath + "/" + Text.Decimal(c.projectId) + "/tasks" <= p
    ensures c.UpdateStatus? ==>
      var tail := "/tasks/" + Text.Decimal(c.taskId);
      |tail| <= |p| && p[|p| - |tail|..] == tail
  {
    match c
    case CreateProject(_) => ProjectsPath
    case CreateTask(pid, _, _) => ProjectsPath + "/" + Text.Decimal(pid) + "/tasks"
    case UpdateStatus(pid, tid, _) =>
      ProjectsPath + "/" + Text.Decimal(pid) + "/tasks/" + Text.Decimal(tid)
  }

  /** Stripping a common prefix: `u + v == u + w` gives `v == w`. */
  lemma DropPrefix(u: string, v: string, w: string)
    requires u + v == u + w
    ensures v == w
  {
    assert v == (u + v)[|u|..];
    assert w == (u + w)[|u|..];
  }

  /** A task-creation path, grouped as the common prefix and the rest. */
  lemma CreateTaskPathShape(c: Call)
    requires c.CreateTask?
    ensures Path(c) == (ProjectsPath + "/") + (Text.Decimal(c.projectId) + "/tasks")
  {
  }

  /** A move path, grouped as the common prefix and the rest. */
  lemma MovePathShape(c: Call)
    requires c.UpdateStatus?
    ensures Path(c) == (ProjectsPath + "/") + (Text.Decimal(c.projectId) + ("/tasks/" + Text.Decimal(c.taskId)))
  {
  }

  /** The path of a task creation names its project: two creations sent to
      the same path are for the same project. */
  lemma CreateTaskPathDeterminesIds(c1: Call, c2: Call)
    requires c1.CreateTask? && c2.CreateTask? && Path(c1) == Path(c2)
    ensures c1.projectId == c2.projectId
  {
    var d1, d2 := Text.Decimal(c1.projectId), Text.Decimal(c2.projectId);
    CreateTaskPathShape(c1);
    CreateTaskPathShape(c2);
    DropPrefix(ProjectsPath + "/", d1 + "/tasks", d2 + "/tasks");
    Text.SplitAtSlash(d1, "/tasks", d2, "/tasks");
    Text.DecimalInjective(c1.projectId, c2.projectId);
  }

  /** The path of a move names both its project and its task: two moves
      sent to the same path are for the same project and the same task. */
  lemma MovePathDeterminesIds(c1: Call, c2: Call)
    requires c1.UpdateStatus? && c2.UpdateStatus? && Path(c1) == Path(c2)
    ensures c1.projectId == c2.projectId && c1.taskId == c2.taskId
  {
    var d1, d2 := Text.Decimal(c1.projectId), Text.Decimal(c2.projectId);
    var e1, e2 := Text.Decimal(c1.taskId), Text.Decimal(c2.taskId);
    MovePathShape(c1);
    MovePathShape(c2);
    DropPrefix(ProjectsPath + "/", d1 + ("/tasks/" + e1), d2 + ("/tasks/" + e2));
    Text.SplitAtSlash(d1, "/tasks/" + e1, d2, "/tasks/" + e2);
    DropPrefix("/tasks/", e1, e2);
    Text.DecimalInjective(c1.projectId, c2.projectId);
    Text.DecimalInjective(c1.taskId, c2.taskId);
  }

  /** The JSON body of the call: exactly the fields the call names. */
  function Payload(c: Call): (v: Value)
    ensures v.Obj?
    ensures c.CreateProject? ==> v.fields.Keys == {"name"} && v.fields["name"] == Str(c.name)
    ensures c.CreateTask? ==>
      && v.fields.Keys == {"title", "description", "status"}
      && v.fields["title"] == Str(c.title) && v.fields["description"] == Str(c.description)
      && v.fields["status"] == Str(Todo)
    ensures c.UpdateStatus? ==> v.fields.Keys == {"status"} && v.fields["status"] == Str(c.status)
  {
    match c
    case CreateProject(name) => Obj(map["name" := Str(name)])
    case CreateTask(_, title, description) =>
      Obj(map["title" := Str(title), "description" := Str(description), "status" := Str(Todo)])
    case UpdateStatus(_, _, status) => Obj(map["status" := Str(status)])
  }

  /** `addProject`: the trimmed name is sent unless it is empty. */
  function AddProject(input: string): (r: Option<Call>)
    ensures r.None? <==> Text.AllSpace(input)
    ensures r.Some? ==> r.value == CreateProject(Text.Trim(input)) && r.value.name != ""
  {
    Text.TrimEmpty(input);
    var name := Text.Trim(input);
    if name == "" then None else Some(CreateProject(name))
  }

  /** `addTask`: nothing is sent without a selected project or with a blank
      title; otherwise the trimmed title and description, with status todo.
      An empty description is allowed. */
  function AddTask(current: Option<int>, titleInput: string, descriptionInput: string): (r: Option<Call>)
    ensures r.None? <==> current.None? || Text.AllSpace(titleInput)
    ensures r.Some? ==>
      r.value == CreateTask(current.value, Text.Trim(titleInput), Text.Trim(descriptionInput))
      && r.value.title != ""
  {
    Text.TrimEmpty(titleInput);
    if current.None? then None
    else
      var title := Text.Trim(titleInput);
      var description := Text.Trim(descriptionInput);
      if title == "" then None else Some(CreateTask(current.value, title, description))
  }

  /** `moveTaskForward`: sends the next status, or nothing when the status
      has no successor. Without a selected project, reading its id throws
      inside the `try`, so nothing is sent either. */
  function MoveForward(current: Option<int>, task: Task): (r: Option<Call>)
    ensures r.Some? <==> current.Some? && (task.status == Todo || task.status == InProgress)
    ensures r.Some? ==>
      && r.value.UpdateStatus?
      && r.value.projectId == current.value
      && r.value.taskId == task.id
      && Some(r.value.status) == NextStatus(task.status)
      && DistanceToDone(r.value.status) == DistanceToDone(task.status) - 1
  {
    match NextStatus(task.status)
    case None => None
    case Some(next) =>
      if current.None? then None else Some(UpdateStatus(current.value, task.id, next))
  }

  /** Padding typed around a name or title does not change what is sent. */
  lemma GuardsIgnorePadding(w1: string, s: string, w2: string, current: Option<int>, description: string)
    requires Text.AllSpace(w1) && Text.AllSpace(w2)
    ensures AddProject(w1 + s + w2) == AddProject(s)
    ensures AddTask(current, w1 + s + w2, description) == AddTask(current, s, description)
  {
    Text.TrimIgnoresPadding(w1, s, w2);
    Text.TrimEmpty(w1 + s + w2);
    Text.TrimEmpty(s);
  }

}

=== FILE: integration.dfy ===
/** How the backend answers the requests the board sends. The board talks
    to `/api/projects...`, which the backend does not serve. */
module Integration {
  import Board
  import Server

  /** Every create or move call the board makes is answered 404 "Not Found" and leaves the
      server's tasks and counter unchanged: no project or task the board
      creates or moves is ever stored. */
  lemma BoardCallsAreNotFound(s: Server.Store, c: Board.Call)
    ensures Server.Handle(s, Board.Verb(c), Board.Path(c), Server.Parsed(Board.Payload(c)))
      == Server.Outcome(s, Server.Response(404, Server.TextPayload(Server.NotFoundText)))
  {
    var p := Board.Path(c);
    assert p[5] == Board.ProjectsPath[5] == 'p';
    assert Server.TasksPath[5] == 't';
  }

  /** So a board's session, whatever it does, leaves the server where it was. */
  lemma {:induction false} BoardSessionChangesNothing(s: Server.Store, cs: seq<Board.Call>)
    ensures Server.Run(s, SessionRequests(cs)) == s
    decreases |cs|
  {
    if cs != [] {
      BoardCallsAreNotFound(s, cs[0]);
      assert SessionRequests(cs)[1..] == SessionRequests(cs[1..]);
      BoardSessionChangesNothing(s, cs[1..]);
    }
  }

  /** The requests the server sees for a sequence of board calls. */
  function SessionRequests(cs: seq<Board.Call>): (rs: seq<Server.Request>)
    ensures |rs| == |cs|
    ensures forall k :: 0 <= k < |cs| ==>
      rs[k] == Server.Request(Board.Verb(cs[k]), Board.Path(cs[k]), Server.Parsed(Board.Payload(cs[k])))
  {
    seq(|cs|, k requires 0 <= k < |cs| =>
      Server.Request(Board.Verb(cs[k]), Board.Path(cs[k]), Server.Parsed(Board.Payload(cs[k]))))
  }

}

=== FILE: json.dfy ===
/** JSON values as `JSON.parse` produces them, kept abstract: the text
    syntax of JSON is not modelled, only the value a parse yields. */
module Json {
  import opened Optional

  /** A parsed JSON document. Numbers are kept as finite reals: a literal
      too large for a double, which parses to an infinity, is not
      represented. Objects are maps from key to value, so duplicate keys have
      already been resolved and key order is not kept. */
  datatype Value =
    | Null
    | Bool(b: bool)
    | Num(n: real)
    | Str(s: string)
    | Arr(items: seq<Value>)
    | Obj(fields: map<string, Value>)

  /** Property read `v[key]` on a value that is not `null`, for a key that
      is neither a built-in property of a string or array (such as `length`
      or an index) nor inherited from a prototype (such as `constructor`).
      `title` and `completed` are such keys: the read yields the object's
      own field, and `undefined` (None) on a number, string, boolean, array
      or an object without that field. Reading from `null` throws in
      JavaScript and is handled by the callers. */
  function Get(v: Value, key: string): (r: Option<Value>)
    ensures r.Some? ==> v.Obj? && key in v.fields && r.value == v.fields[key]
    ensures v.Obj? && key in v.fields ==> r.Some?
  {
    if v.Obj? && key in v.fields then Some(v.fields[key]) else None
  }

  /** JavaScript truthiness, as `Boolean(x)` computes it, of a property that
      may be `undefined`. */
  predicate Truthy(v: Option<Value>)
    ensures Truthy(v) ==> v.Some? && v.value != Null
    ensures v.Some? && (v.value.Arr? || v.value.Obj?) ==> Truthy(v)
  {
    match v
    case None => false
    case Some(Null) => false
    case Some(Bool(b)) => b
    case Some(Num(n)) => n != 0.0
    case Some(Str(s)) => s != ""
    case Some(Arr(_)) => true
    case Some(Obj(_)) => true
  }

  /** The falsy values are exactly `undefined`, `null`, `false`, `0` and the
      empty string. */
  lemma FalsyValues(v: Option<Value>)
    ensures !Truthy(v) <==>
      v == None || v == Some(Null) || v == Some(Bool(false)) || v == Some(Num(0.0)) || v == Some(Str(""))
  {
  }

}

=== FILE: optional.dfy ===
/** An optional value, used for JavaScript's `undefined` (a property that is
    not there) and for "nothing happens" outcomes. */
module Optional {

  datatype Option<+T> = None | Some(value: T)

}

=== FILE: server.dfy ===
/** The in-memory task API of backend/server.js: a store of tasks with an id
    counter, and one pure step per HTTP request from (store, verb,
    pathname, body) to (store', status, reply). */
module Server {
  import opened Optional
  import opened Json

  const TasksPath := "/api/tasks"
  const InvalidJsonMessage := "Invalid JSON payload."
  const MissingTitleMessage := "Task must have a string title."
  const NotFoundText := "Not Found"

  /** The fields the server itself sets on every stored task. */
  const ReservedKeys: set<string> := {"id", "title", "completed"}

  /** A stored task: the three fields the server manages, plus whatever
      other fields the client sent with it. */
  datatype Task = Task(id: int, title: string, completed: bool, extra: map<string, Value>)

  /** The JSON object `JSON.stringify` writes for a stored task. */
  function ToJson(t: Task): (v: Value)
    ensures v.Obj? && v.fields.Keys == t.extra.Keys + ReservedKeys
    ensures v.fields["id"] == Num(t.id as real)
    ensures v.fields["title"] == Str(t.title)
    ensures v.fields["completed"] == Bool(t.completed)
    ensures forall k :: k in t.extra && k !in ReservedKeys ==> v.fields[k] == t.extra[k]
  {
    Obj(t.extra["id" := Num(t.id as real)]["title" := Str(t.title)]["completed" := Bool(t.completed)])
  }

  /** The JSON array a `GET /api/tasks` writes: one object per task, in
      store order. */
  function TasksJson(tasks: seq<Task>): (r: seq<Value>)
    ensures |r| == |tasks|
    ensures forall i :: 0 <= i < |tasks| ==> r[i] == ToJson(tasks[i])
  {
    seq(|tasks|, i requires 0 <= i < |tasks| => ToJson(tasks[i]))
  }

  /** The module-level state: the task array and the next id to assign. */
  datatype Store = Store(tasks: seq<Task>, nextId: int)

  /** The state the process starts with: one example task with id 1. */
  function Seed(): (s: Store)
    ensures Valid(s) && Dense(s)
    ensures |s.tasks| == 1 && s.nextId == 2
    ensures s.tasks[0].id == 1 && s.tasks[0].title == "Example Task" && !s.tasks[0].completed
  {
    Store([Task(1, "Example Task", false, map[])], 2)
  }

  predicate WellFormed(t: Task)
  {
    t.title != "" && t.extra.Keys !! ReservedKeys
  }

  /** The store invariant: every task is well formed, every id is at least 1
      and below `nextId`, and ids strictly increase along the array (so no
      two tasks share an id). */
  predicate Valid(s: Store)
  {
    && 1 <= s.nextId
    && (forall i :: 0 <= i < |s.tasks| ==> WellFormed(s.tasks[i]) && 1 <= s.tasks[i].id < s.nextId)
    && (forall i, j :: 0 <= i < j < |s.tasks| ==> s.tasks[i].id < s.tasks[j].id)
  }

  /** Nothing is ever removed, so from the seed the ids are exactly
      1, 2, ..., n in order and `nextId` is n + 1. */
  predicate Dense(s: Store)
  {
    && s.nextId == |s.tasks| + 1
    && forall i :: 0 <= i < |s.tasks| ==> s.tasks[i].id == i + 1
  }

  /** The request body as `JSON.parse` sees it. */
  datatype Body = ParseError | Parsed(value: Value)

  /** What the response carries: nothing, a JSON document, or plain text. */
  datatype Payload = NoContent | JsonPayload(value: Value) | TextPayload(text: string)

  datatype Response = Response(status: int, payload: Payload)

  datatype Outcome = Outcome(store: Store, response: Response)

  datatype Request = Request(verb: string, path: string, body: Body)

  /** Why a POST was refused. */
  datatype Rejection = InvalidJson | MissingTitle

  /** The result of checking a POST body: the payload object and its title,
      or a rejection. */
  datatype Checked = Accepted(fields: map<string, Value>, title: string) | Rejected(why: Rejection)

  function Message(why: Rejection): string
  {
    match why
    case InvalidJson => InvalidJsonMessage
    case MissingTitle => MissingTitleMessage
  }

  function ErrorBody(message: string): Value
  {
    Obj(map["error" := Str(message)])
  }

  /** The checks of the POST handler. A body that does not parse fails in
      `JSON.parse`, and a body that parses to `null` fails when `title` is
      read from it; both land in the catch block. Any other value is
      accepted exactly when its `title` is a non-empty string; a title of
      spaces passes, since nothing trims it. */
  function Validate(body: Body): (r: Checked)
    ensures r == Rejected(InvalidJson) <==> body == ParseError || body == Parsed(Null)
    ensures r.Accepted? <==>
      body.Parsed? && body.value.Obj? && "title" in body.value.fields
      && body.value.fields["title"].Str? && body.value.fields["title"].s != ""
    ensures r.Accepted? ==> body == Parsed(Obj(r.fields)) && r.fields["title"] == Str(r.title)
  {
    match body
    case ParseError => Rejected(InvalidJson)
    case Parsed(Null) => Rejected(InvalidJson)
    case Parsed(Obj(fields)) =>
      (match Get(Obj(fields), "title")
       case Some(Str(title)) =>
         if title == "" then Rejected(MissingTitle) else Accepted(fields, title)
       case _ => Rejected(MissingTitle))
    case Parsed(_) =>
      // a number, string, boolean or array has no own `title`
      Rejected(MissingTitle)
  }

  /** `POST /api/tasks` once the body has been read. */
  function Post(s: Store, body: Body): (out: Outcome)
    ensures Validate(body).Rejected? ==>
      out == Outcome(s, Response(400, JsonPayload(ErrorBody(Message(Validate(body).why)))))
    ensures Validate(body).Accepted? ==>
      && |out.store.tasks| == |s.tasks| + 1
      && out.store.tasks[..|s.tasks|] == s.tasks
      && out.store.nextId == s.nextId + 1
      && out.store.tasks[|s.tasks|].id == s.nextId
      && out.response == Response(200, JsonPayload(ToJson(out.store.tasks[|s.tasks|])))
  {
    match Validate(body)
    case Rejected(why) =>
      Outcome(s, Response(400, JsonPayload(ErrorBody(Message(why)))))
    case Accepted(fields, title) =>
      var t := Task(s.nextId, title, Truthy(Get(Obj(fields), "completed")), fields - ReservedKeys);
      Outcome(Store(s.tasks + [t], s.nextId + 1), Response(200, JsonPayload(ToJson(t))))
  }

  /** One request. OPTIONS is answered first, whatever the path; then
      GET and POST on exactly `/api/tasks`; everything else is 404. */
  function Handle(s: Store, verb: string, path: string, body: Body): (out: Outcome)
    ensures out.response.status in {200, 204, 400, 404}
    ensures out.store != s ==> verb == "POST" && path == TasksPath && out.response.status == 200
    ensures verb == "OPTIONS" ==> out == Outcome(s, Response(204, NoContent))
    ensures verb == "GET" && path == TasksPath ==>
      out.store == s && out.response.status == 200 &&
      out.response.payload == JsonPayload(Arr(TasksJson(s.tasks)))
    ensures verb != "OPTIONS" && (path != TasksPath || (verb != "GET" && verb != "POST")) ==>
      out == Outcome(s, Response(404, TextPayload(NotFoundText)))
    ensures verb == "POST" && path == TasksPath ==> out == Post(s, body)
  {
    if verb == "OPTIONS" then
      Outcome(s, Response(204, NoContent))
    else if path == TasksPath && verb == "GET" then
      Outcome(s, Response(200, JsonPayload(Arr(TasksJson(s.tasks)))))
    else if path == TasksPath && verb == "POST" then
      Post(s, body)
    else
      Outcome(s, Response(404, TextPayload(NotFoundText)))
  }

  function Step(s: Store, r: Request): Outcome
  {
    Handle(s, r.verb, r.path, r.body)
  }

  /** The store after a sequence of requests, each handled to completion
      before the next starts (one event loop). */
  function Run(s: Store, rs: seq<Request>): Store
    decreases |rs|
  {
    if rs == [] then s else Run(Step(s, rs[0]).store, rs[1..])
  }

  /** A refused POST leaves the tasks and the counter alone and names the
      reason in the error body. */
  lemma RejectedPostChangesNothing(s: Store, body: Body)
    requires Validate(body).Rejected?
    ensures Handle(s, "POST", TasksPath, body).store == s
    ensures Handle(s, "POST", TasksPath, body).response.status == 400
    ensures body == ParseError || body == Parsed(Null) ==>
      Handle(s, "POST", TasksPath, body).response.payload == JsonPayload(ErrorBody(InvalidJsonMessage))
    ensures body != ParseError && body != Parsed(Null) ==>
      Handle(s, "POST", TasksPath, body).response.payload == JsonPayload(ErrorBody(MissingTitleMessage))
  {
  }

  /** The task a successful POST stores is the client's object, changed in
      place the way the handler changes it: `id` overwritten by the old
      counter, `completed` replaced by its truthiness, every other field
      kept. */
  lemma CreatedTaskIsMutatedPayload(s: Store, fields: map<string, Value>)
    requires Validate(Parsed(Obj(fields))).Accepted?
    ensures var out := Post(s, Parsed(Obj(fields)));
      ToJson(out.store.tasks[|s.tasks|]) ==
        Obj(fields["id" := Num(s.nextId as real)]["completed" := Bool(Truthy(Get(Obj(fields), "completed")))])
  {
    var c := Validate(Parsed(Obj(fields)));
    var t := Post(s, Parsed(Obj(fields))).store.tasks[|s.tasks|];
    var mutated := fields["id" := Num(s.nextId as real)]["completed" := Bool(Truthy(Get(Obj(fields), "completed")))];
    assert ToJson(t).fields.Keys == mutated.Keys;
    forall k | k in mutated
      ensures ToJson(t).fields[k] == mutated[k]
    {
      if k == "title" {
        assert fields["title"] == Str(c.title);
      }
    }
  }

  /** Every request keeps the store invariant. */
  lemma StepPreservesValid(s: Store, r: Request)
    requires Valid(s)
    ensures Valid(Step(s, r).store)
  {
    var out := Step(s, r);
    if out.store != s {
      var c := Validate(r.body);
      assert c.Accepted?;
      var n := |s.tasks|;
      assert out.store.tasks == s.tasks + [out.store.tasks[n]];
      assert WellFormed(out.store.tasks[n]) by {
        assert out.store.tasks[n].extra == c.fields - ReservedKeys;
      }
    }
  }

  /** Every request keeps the ids dense. */
  lemma StepPreservesDense(s: Store, r: Request)
    requires Dense(s)
    ensures Dense(Step(s, r).store)
  {
  }

  /** Over any sequence of requests the invariants hold, no stored task is
      changed or lost, and the counter grows by exactly the number of tasks
      added. */
  lemma {:induction false} RunPreserves(s: Store, rs: seq<Request>)
    requires Valid(s)
    ensures Valid(Run(s, rs))
    ensures Dense(s) ==> Dense(Run(s, rs))
    ensures |s.tasks| <= |Run(s, rs).tasks| && Run(s, rs).tasks[..|s.tasks|] == s.tasks
    ensures Run(s, rs).nextId - s.nextId == |Run(s, rs).tasks| - |s.tasks|
    decreases |rs|
  {
    if rs != [] {
      var s' := Step(s, rs[0]).store;
      StepPreservesValid(s, rs[0]);
      if Dense(s) {
        StepPreservesDense(s, rs[0]);
      }
      assert |s.tasks| <= |s'.tasks| && s'.tasks[..|s.tasks|] == s.tasks;
      RunPreserves(s', rs[1..]);
      var t := Run(s', rs[1..]).tasks;
      assert t[..|s.tasks|] == t[..|s'.tasks|][..|s.tasks|];
    }
  }

  /** Every state the server reaches has distinct ids 1..n in order, all
      below `nextId`. */
  lemma ReachableStoresAreValid(rs: seq<Request>)
    ensures Valid(Run(Seed(), rs)) && Dense(Run(Seed(), rs))
    ensures var ts := Run(Seed(), rs).tasks;
      forall i, j :: 0 <= i < |ts| && 0 <= j < |ts| && i != j ==> ts[i].id != ts[j].id
  {
    RunPreserves(Seed(), rs);
  }

  /** The title is not trimmed: any non-empty title, blanks included, is
      accepted and stored exactly as sent. */
  lemma TitleStoredUntrimmed(s: Store, title: string)
    requires title != ""
    ensures var out := Handle(s, "POST", TasksPath, Parsed(Obj(map["title" := Str(title)])));
      && out.response.status == 200
      && |out.store.tasks| == |s.tasks| + 1
      && out.store.tasks[|s.tasks|].title == title
  {
  }

  /** For instance, a title of three blanks is stored as is. */
  lemma BlankTitleAccepted(s: Store)
    ensures var out := Handle(s, "POST", TasksPath, Parsed(Obj(map["title" := Str("   ")])));
      out.response.status == 200 && out.store.tasks[|s.tasks|].title == "   "
  {
    TitleStoredUntrimmed(s, "   ");
  }

  /** A successful POST followed by a GET lists the earlier tasks unchanged
      and, last, the very object the POST answered with. */
  lemma PostThenGet(s: Store, body: Body)
    requires Validate(body).Accepted?
    ensures var post := Handle(s, "POST", TasksPath, body);
      var get := Handle(post.store, "GET", TasksPath, ParseError);
      && get.response.payload.JsonPayload?
      && get.response.payload.value == Arr(TasksJson(s.tasks) + [post.response.payload.value])
  {
    var post := Handle(s, "POST", TasksPath, body);
    assert post.store.tasks == s.tasks + [post.store.tasks[|s.tasks|]];
  }

  /** A new id differs from the id of every task already stored. */
  lemma NewIdIsFresh(s: Store, body: Body)
    requires Valid(s) && Validate(body).Accepted?
    ensures forall i :: 0 <= i < |s.tasks| ==>
      s.tasks[i].id != Handle(s, "POST", TasksPath, body).store.tasks[|s.tasks|].id
  {
  }

}

=== FILE: text.dfy ===
/** The two JavaScript string operations the frontend relies on:
    `String.prototype.trim` and the decimal rendering of an integer id in a
    template literal. */
module Text {

  /** The characters `trim` removes: the WhiteSpace and LineTerminator
      code points of section 12.2 and 12.3 of ECMA-262 (tab, vertical tab,
      form feed, the byte order mark, every space separator, line feed,
      carriage return, line and paragraph separator). */
  const Spaces: set<char> := {
    '\t', '\n', '\U{B}', '\U{C}', '\r', ' ', '\U{A0}', '\U{1680}',
    '\U{2000}', '\U{2001}', '\U{2002}', '\U{2003}', '\U{2004}', '\U{2005}',
    '\U{2006}', '\U{2007}', '\U{2008}', '\U{2009}', '\U{200A}',
    '\U{2028}', '\U{2029}', '\U{202F}', '\U{205F}', '\U{3000}', '\U{FEFF}'
  }

  predicate IsSpace(c: char)
  {
    c in Spaces
  }

  /** Every character of `s` in the index range [lo, hi) is white space. */
  predicate SpaceBetween(s: string, lo: int, hi: int)
    requires 0 <= lo <= hi <= |s|
  {
    forall k :: lo <= k < hi ==> IsSpace(s[k])
  }

  predicate AllSpace(s: string)
  {
    SpaceBetween(s, 0, |s|)
  }

  /** The slice `s[i..j]` starts and ends with a non-space character (or is
      empty) and has only white space around it. */
  predicate IsTrimmedSlice(s: string, i: int, j: int)
  {
    && 0 <= i <= j <= |s|
    && SpaceBetween(s, 0, i) && SpaceBetween(s, j, |s|)
    && (i < j ==> !IsSpace(s[i]) && !IsSpace(s[j - 1]))
  }

  /** The index of the first non-space character at or after `lo`, or `|s|`. */
  function SkipForward(s: string, lo: nat): (i: nat)
    requires lo <= |s|
    requires SpaceBetween(s, 0, lo)
    ensures lo <= i <= |s| && SpaceBetween(s, 0, i)
    ensures i < |s| ==> !IsSpace(s[i])
    decreases |s| - lo
  {
    if lo < |s| && IsSpace(s[lo]) then SkipForward(s, lo + 1) else lo
  }

  /** The index just after the last non-space character before `hi`, but
      not below `lo`. */
  function SkipBackward(s: string, lo: nat, hi: nat): (j: nat)
    requires lo <= hi <= |s|
    requires SpaceBetween(s, hi, |s|)
    ensures lo <= j <= hi && SpaceBetween(s, j, |s|)
    ensures lo < j ==> !IsSpace(s[j - 1])
    decreases hi
  {
    if lo < hi && IsSpace(s[hi - 1]) then SkipBackward(s, lo, hi - 1) else hi
  }

  /** `s.trim()`: the slice of `s` between its leading and its trailing white
      space. */
  function Trim(s: string): (r: string)
    ensures exists i, j :: IsTrimmedSlice(s, i, j) && r == s[i..j]
  {
    var i := SkipForward(s, 0);
    var j := SkipBackward(s, i, |s|);
    assert IsTrimmedSlice(s, i, j);
    s[i..j]
  }

  /** There is only one trimmed slice of a string. */
  lemma TrimmedSliceUnique(s: string, i: int, j: int, i': int, j': int)
    requires IsTrimmedSlice(s, i, j) && IsTrimmedSlice(s, i', j')
    ensures s[i..j] == s[i'..j']
  {
    if i < j && i' < j' {
      assert i == i';
      assert j == j';
    }
  }

  /** So a trimmed slice is what `Trim` returns. */
  lemma TrimIsTheTrimmedSlice(s: string, i: int, j: int)
    requires IsTrimmedSlice(s, i, j)
    ensures Trim(s) == s[i..j]
  {
    var i', j' :| IsTrimmedSlice(s, i', j') && Trim(s) == s[i'..j'];
    TrimmedSliceUnique(s, i, j, i', j');
  }

  /** The trimmed string is empty exactly when the input is all white space. */
  lemma TrimEmpty(s: string)
    ensures Trim(s) == [] <==> AllSpace(s)
  {
    var r := Trim(s);
    assert exists i, j :: IsTrimmedSlice(s, i, j) && r == s[i..j];
    var i, j :| IsTrimmedSlice(s, i, j) && r == s[i..j];
    if AllSpace(s) {
      assert IsTrimmedSlice(s, 0, 0);
      TrimmedSliceUnique(s, i, j, 0, 0);
    }
    if Trim(s) == [] {
      assert i == j;
      forall k | 0 <= k < |s| ensures IsSpace(s[k]) {
        if k >= i { assert k >= j; }
      }
    }
  }

  /** A trimmed string neither starts nor ends with white space. */
  lemma TrimHasNoPadding(s: string)
    ensures Trim(s) != [] ==> !IsSpace(Trim(s)[0]) && !IsSpace(Trim(s)[|Trim(s)| - 1])
  {
    var r := Trim(s);
    var i, j :| IsTrimmedSlice(s, i, j) && r == s[i..j];
  }

  /** White space added around a string does not change its trimmed form. */
  lemma TrimIgnoresPadding(w1: string, s: string, w2: string)
    requires AllSpace(w1) && AllSpace(w2)
    ensures Trim(w1 + s + w2) == Trim(s)
  {
    var t := w1 + s + w2;
    var r := Trim(s);
    var i, j :| IsTrimmedSlice(s, i, j) && r == s[i..j];
    var a, b := |w1| + i, |w1| + j;
    forall k | 0 <= k < |s| ensures t[|w1| + k] == s[k] { }
    forall k | 0 <= k < |w1| ensures t[k] == w1[k] { }
    forall k | 0 <= k < |w2| ensures t[|w1| + |s| + k] == w2[k] { }
    assert SpaceBetween(t, 0, a) by {
      forall k | 0 <= k < a ensures IsSpace(t[k]) {
        if k >= |w1| { assert t[k] == s[k - |w1|]; }
      }
    }
    assert SpaceBetween(t, b, |t|) by {
      forall k | b <= k < |t| ensures IsSpace(t[k]) {
        if k < |w1| + |s| { assert t[k] == s[k - |w1|]; } else { assert t[k] == w2[k - |w1| - |s|]; }
      }
    }
    assert t[a..b] == s[i..j] by {
      forall k | 0 <= k < b - a ensures t[a..b][k] == s[i..j][k] {
        assert t[a + k] == s[i + k];
      }
    }
    TrimIsTheTrimmedSlice(t, a, b);
  }

  /** A string without surrounding white space is its own trimmed form. */
  lemma TrimKeepsUnpadded(r: string)
    requires r != [] ==> !IsSpace(r[0]) && !IsSpace(r[|r| - 1])
    ensures Trim(r) == r
  {
    assert SpaceBetween(r, 0, 0);
    assert SpaceBetween(r, |r|, |r|);
    TrimIsTheTrimmedSlice(r, 0, |r|);
  }

  /** Trimming twice is trimming once. */
  lemma TrimIdempotent(s: string)
    ensures Trim(Trim(s)) == Trim(s)
  {
    TrimHasNoPadding(s);
    TrimKeepsUnpadded(Trim(s));
  }

  function DigitChar(d: int): (c: char)
    requires 0 <= d < 10
    ensures '0' <= c <= '9' && c as int - '0' as int == d
  {
    "0123456789"[d]
  }

  /** The decimal digits of `n`, most significant first, without leading
      zeros. */
  function Digits(n: nat): (r: string)
    ensures r != []
    ensures forall k :: 0 <= k < |r| ==> '0' <= r[k] <= '9'
    ensures r[0] == '0' ==> n == 0
    decreases n
  {
    if n < 10 then [DigitChar(n)] else Digits(n / 10) + [DigitChar(n % 10)]
  }

  /** How a safe integer (at most 2^53 - 1 in magnitude) is written in a
      template literal: a minus sign for a negative value, then its digits. */
  function Decimal(n: int): (r: string)
    ensures r != []
    ensures r[0] == '-' <==> n < 0
    ensures forall k :: 0 < k < |r| ==> '0' <= r[k] <= '9'
  {
    if n < 0 then "-" + Digits(-n) else Digits(n)
  }

  /** The number a string of decimal digits denotes. */
  function DigitsValue(s: string): int
  {
    if s == [] then 0 else 10 * DigitsValue(s[..|s| - 1]) + (s[|s| - 1] as int - '0' as int)
  }

  /** Reading back the digits gives the number again, so distinct ids are
      written differently. */
  lemma {:induction false} DigitsRoundTrip(n: nat)
    ensures DigitsValue(Digits(n)) == n
    decreases n
  {
    if n >= 10 {
      var d := Digits(n);
      assert d[..|d| - 1] == Digits(n / 10);
      DigitsRoundTrip(n / 10);
    }
  }

  /** The integer a (possibly signed) decimal string denotes. */
  function DecimalValue(s: string): int
  {
    if s != [] && s[0] == '-' then -DigitsValue(s[1..]) else DigitsValue(s)
  }

  /** Reading back the decimal form of an id gives the id, so distinct ids
      are written differently. */
  lemma DecimalRoundTrip(n: int)
    ensures DecimalValue(Decimal(n)) == n
  {
    var d := Digits(if n < 0 then -n else n);
    assert d[0] != '-';
    DigitsRoundTrip(if n < 0 then -n else n);
    if n < 0 {
      assert Decimal(n) == "-" + d;
      assert ("-" + d)[1..] == d;
    } else {
      assert Decimal(n) == d;
    }
  }

  /** Two integers with the same decimal form are equal. */
  lemma DecimalInjective(m: int, n: int)
    requires Decimal(m) == Decimal(n)
    ensures m == n
  {
    DecimalRoundTrip(m);
    DecimalRoundTrip(n);
  }

  /** In `a + x`, where `a` has no '/' and `x` starts with one, the first
      '/' is at index `|a|`. */
  lemma FirstSlash(a: string, x: string)
    requires forall k :: 0 <= k < |a| ==> a[k] != '/'
    requires x != [] && x[0] == '/'
    ensures (a + x)[|a|] == '/'
    ensures forall k :: 0 <= k < |a| ==> (a + x)[k] != '/'
  {
  }

  /** If two strings without a '/' are each followed by a '/', the first '/'
      of the whole separates them: both the heads and the rests agree. */
  lemma {:induction false} SplitAtSlash(a: string, x: string, b: string, y: string)
    requires forall k :: 0 <= k < |a| ==> a[k] != '/'
    requires forall k :: 0 <= k < |b| ==> b[k] != '/'
    requires x != [] && x[0] == '/' && y != [] && y[0] == '/'
    requires a + x == b + y
    ensures a == b && x == y
  {
    FirstSlash(a, x);
    FirstSlash(b, y);
    assert |a| == |b|;
    assert a == (a + x)[..|a|] && b == (b + y)[..|b|];
    assert x == (a + x)[|a|..] && y == (b + y)[|b|..];
  }

}
